=== FILE: README.md ===
# Daily activity engine of boring-work, in Dafny

boring-work records tasks carrying zero or more tag ids. Only the three catalog tags (money,
knowledge, branding) carry weight; any other id is stored with the task but ignored by the
aggregate. Every task created or deleted moves a per-user, per-day aggregate: a total weight
and a weight per tag. The dashboard turns those daily aggregates into three things:

- a year-long heatmap grid with month labels and five colour intensities;
- all-time totals per tag;
- today's summary and the current streak of active days.

A small validator guards the registration endpoint.

This project models that engine and proves what the code promises about it:

- `tags.dfy` (module `Tags`): the fixed tag catalog and its lookups.
- `tag_weights.dfy` (module `TagWeights`): per-tag weight dictionaries, where a missing key reads
  as 0, and the sum of their values.
- `aggregation.dfy` (module `Aggregation`): `updateDailySummary` as a loop proved against a
  closed-form update, and the `Database` class holding the `daily_summaries` and `tasks`
  tables as maps.
  - `CreateTask` and `DeleteTask` call the update with `+1` and `-1`.
  - The update keeps `weight == sum(tagWeights)`.
  - A create followed by a delete on the same day restores every value.
  - An unmatched delete drives values negative. There is no clamping.
- `calendar.dfy` (module `Calendar`): day numbers (0 = 1970-01-01), the weekday (0 = Sunday)
  and a civil-date conversion for the month, with its round trip.
- `summaries.dfy` (module `Summaries`): the summaries the dashboard and heatmap receive, and
  the date-keyed `Map` built from them, where the later entry wins.
- `heatmap.dfy` (module `Heatmap`): the grid-building effect (week rows, cell classification),
  the month-label pass and `getColor`.
- `dashboard.dfy` (module `Dashboard`): `allTimeTagWeights`, `todaySummary` and the
  `currentStreak` walk.
- `registration.dfy` (module `Registration`): the validation chain of the register route and
  its mapping of thrown errors to 400 responses.
- `wrappers.dfy` (module `Wrappers`): `Option` and `Result`.

"Today" and the heatmap's window start are parameters; nothing reads a clock. The database is
an in-memory map used by one sequential caller.

`updateDailySummary` does not clamp. A -1 update for a tag the day has not seen makes the total
and that tag's entry negative (`Aggregation.DeleteWithoutCreateGoesNegative`).

## Model

| member | source | states |
|---|---|---|
| Tags.List | lib/db/actions.ts:46-50 | the catalog has exactly three tags, `tag-money`, `tag-knowledge`, `tag-branding` in that order, with distinct ids and weight 1 |
| Tags.FindById | lib/db/actions.ts:119-121 | `find` returns a tag exactly when some tag has the id, and then it is the first such tag |
| Tags.Get | lib/db/actions.ts:119-121 | `tagOps.get` returns a catalog tag with the requested id (weight 1) exactly when one exists, otherwise nothing |
| Tags.KnownIds | lib/db/actions.ts:46-50 | exactly the three catalog ids resolve |
| Tags.IdsDistinct | lib/db/actions.ts:46-50 | the three catalog ids are pairwise different |
| TagWeights.SumRemove | components/contribution-heatmap.tsx:115 | the sum of a tag-weight map is one entry plus the sum of the rest, whichever key is taken first |
| TagWeights.SumUpdate | lib/db/actions.ts:231 | writing `v` at key `k` changes the sum by `v` minus the old value of `k` (0 if missing) |
| Aggregation.Current | lib/db/actions.ts:216-225 | the update starts from the stored row, or from weight 0 and empty tag weights when none exists |
| Aggregation.Resolve | lib/db/actions.ts:227 | one tag per id that `tagOps.get` resolves (so `KnownCount(tagIds)` of them, never more than the ids), each being the catalog tag its own id resolves to; unknown ids are dropped |
| Aggregation.ResolvedDeltaFor | lib/db/actions.ts:227-232 | a tag's entry moves by `multiplier` once per occurrence of its id (no de-duplication), and by nothing for an unknown id |
| Aggregation.ResolvedDelta | lib/db/actions.ts:227-232 | the day's total moves by `multiplier` once per occurrence of a known id |
| Aggregation.AppliedSnoc | lib/db/actions.ts:228-232 | the closed-form update over one more tag is one more iteration of the `forEach` body |
| Aggregation.AppliedNothing | lib/db/actions.ts:228-232 | with no resolved tags the summary is unchanged |
| Aggregation.AppliedPrefix | lib/db/actions.ts:228-232 | the closed form over the first `i + 1` tags is one loop step after the first `i` |
| Aggregation.StepKeepsBalance | lib/db/actions.ts:229-231 | one iteration adds the same amount to the total and to one entry, so `sum(tagWeights) - weight` is unchanged |
| Aggregation.AppliedKeepsBalance | lib/db/actions.ts:228-232 | the whole loop leaves `sum(tagWeights) - weight` unchanged |
| Aggregation.AppliedOutsideTags | lib/db/actions.ts:228-232 | a key that no resolved tag names keeps its presence and value |
| Aggregation.NoDeltaForAbsent | lib/db/actions.ts:228-232 | a tag id absent from the resolved list receives nothing |
| Aggregation.ApplyTags | lib/db/actions.ts:228-232 | the `forEach` loop computes the closed-form update, keeps date, user and the imbalance, and leaves untouched keys alone |
| Aggregation.UpsertTouchesOnlyToday | lib/db/actions.ts:234-237 | the upsert writes the `(userId, today)` row and leaves every other user and day as it was |
| Aggregation.DeltaNegated | lib/db/actions.ts:229 | with multiplier `-m` every contribution is the negation of the one with `m` |
| Aggregation.AppliedInverse | lib/db/actions.ts:228-232 | applying the same tags with `m` then `-m` restores the total and every per-tag value (missing reads as 0) |
| Aggregation.CreateThenDeleteRestores | lib/db/actions.ts:160-198 | a create (+1) then a delete (-1) of the same tags on the same day restores that day's total and per-tag values, and no other row changes |
| Aggregation.DeleteWithoutCreateGoesNegative | lib/db/actions.ts:228-232 | without clamping, a delete of a known tag for a user and day that have no row, in any store, leaves total -1 and that tag at -1 |
| Aggregation.UpsertedValid | lib/db/actions.ts:213-238 | every row stays keyed by its own user and day and balanced (`weight == sum(tagWeights)`) |
| Aggregation.Database.UpdateDailySummary | lib/db/actions.ts:213-238 | the store becomes the old store with only the `(userId, today)` row replaced by the updated summary; rows stay balanced |
| Aggregation.Database.CreateTask | lib/db/actions.ts:160-167 | the task is stored, and its tags are added to today's summary with +1 |
| Aggregation.Database.DeleteTask | lib/db/actions.ts:192-198 | an unknown id changes nothing; otherwise the task is removed and its stored tags are subtracted from today's summary with -1 |
| Calendar.Weekday | components/contribution-heatmap.tsx:65 | `getDay` lies in 0..6 and is 0 (Sunday) exactly on the days congruent to 1970-01-04 |
| Calendar.WeekdayNext | components/contribution-heatmap.tsx:84 | stepping one day forward moves the weekday on by one, wrapping from Saturday to Sunday |
| Calendar.Locate | components/contribution-heatmap.tsx:96 | a day splits into 400-year era, century, 4-year block, year and day of year, which recombine to the day |
| Calendar.MarchMonth | components/contribution-heatmap.tsx:96 | a day of a March-based year falls in month 0..11 and within that month's days |
| Calendar.CivilFromDays | components/contribution-heatmap.tsx:96 | a day's civil date has month 1..12 and a day within that month's length, 29 February only in leap years |
| Calendar.DayFitsMonth | components/contribution-heatmap.tsx:96 | the day of the month computed from a calendar position never exceeds that month's length, and day 365 of a March-based year is 29 February of a leap year |
| Calendar.MonthOf | components/contribution-heatmap.tsx:96 | `getMonth` lies in 0..11 |
| Calendar.CivilRoundTrip | components/contribution-heatmap.tsx:96 | converting a day to its civil date and back gives the same day |
| Calendar.March2023 | components/contribution-heatmap.tsx:96 | 2023-03-01 is day 19417, in month index 2, on a Wednesday |
| Calendar.March2024 | components/contribution-heatmap.tsx:96 | 2024-03-01, after a leap day, is day 19783, in month index 2 |
| Summaries.LatestByDate | components/contribution-heatmap.tsx:59 | the map has one entry per date, each carries its own date, and for a repeated date the last summary wins |
| Heatmap.GridStart | components/contribution-heatmap.tsx:64-67 | the grid's first day is a Sunday, on or before `startDate`, and fewer than 7 days before it |
| Heatmap.Row | components/contribution-heatmap.tsx:73-85 | a row has 7 cells; cell `j` is the cell of day `rowStart + j` |
| Heatmap.FillWeek | components/contribution-heatmap.tsx:73-85 | the inner loop builds exactly the row starting at its current date |
| Heatmap.BuildWeeks | components/contribution-heatmap.tsx:69-87 | the grid has `(today - firstDate) div 7 + 1` rows, and cell `j` of row `i` is the cell of day `firstDate + 7*i + j` |
| Heatmap.RowsCoverToday | components/contribution-heatmap.tsx:72 | the loop stops after the row containing today, so the row count is `(today - firstDate) div 7 + 1` |
| Heatmap.GridShape | components/contribution-heatmap.tsx:70-86 | the last row contains today, and cell `j` of every row falls on weekday `j` |
| Heatmap.CellContents | components/contribution-heatmap.tsx:76-83 | a cell is null exactly outside `[startDate, today]`; otherwise it carries its date and is the stored summary if there is one, else the zero summary |
| Heatmap.FirstDayIsFirst | components/contribution-heatmap.tsx:94 | `find` yields a cell exactly when the week has a non-null one, and no non-null cell precedes it |
| Heatmap.WeekMonths | components/contribution-heatmap.tsx:94-96 | each week's month is the month of its first non-null cell, in 0..11 |
| Heatmap.SkipWeek | components/contribution-heatmap.tsx:94-106 | a week without cells, or whose month equals the last label's month, gets no label and keeps every earlier fact |
| Heatmap.LabelWeek | components/contribution-heatmap.tsx:97-104 | a week whose month differs from the last label's month gets a label, and the label facts extend to it |
| Heatmap.MonthLabels | components/contribution-heatmap.tsx:91-108 | every label sits above a week whose first non-null cell is in its month; week indices strictly increase; neighbouring labels differ in month; a week is labelled exactly when its month differs from the previous label's; week 0 is labelled when it has a cell |
| Heatmap.FirstRowStartsAtStartDate | components/contribution-heatmap.tsx:64-83 | the first row's first non-null cell is `startDate` itself |
| Heatmap.GridWithLabels | components/contribution-heatmap.tsx:56-111 | the effect's grid and labels, and the first label is at week 0 with the month of `startDate` |
| Heatmap.Bucket | components/contribution-heatmap.tsx:116-120 | intensity 0 exactly for a zero total, 1 exactly for a non-zero total of at most 2 (negatives included), 2 exactly for 3..5, 3 exactly for 6..8, 4 exactly above 8 |
| Heatmap.BucketMonotone | components/contribution-heatmap.tsx:116-120 | for non-negative totals a larger total never gets a lighter bucket |
| Heatmap.GetColor | components/contribution-heatmap.tsx:113-121 | the colour class is the palette entry of the bucket of the summed tag weights; null cells, missing weights and a zero sum give `bg-muted` |
| Dashboard.TotalForUnseen | app/dashboard/page.tsx:58-61 | a tag that occurs in no summary totals zero |
| Dashboard.AddWeights | app/dashboard/page.tsx:59-61 | the inner loop adds every entry of a summary's weights into the totals, a missing total reading as 0 |
| Dashboard.AllTimeTagWeights | app/dashboard/page.tsx:52-66 | a non-array input gives an empty map; otherwise the keys are the tags seen and each value is the sum of that tag over all summaries with tag weights |
| Dashboard.FindDate | app/dashboard/page.tsx:74-75 | the result is present exactly when some summary is dated today, and it is the first such summary |
| Dashboard.TodaySummary | app/dashboard/page.tsx:69-75 | null for a non-array input, otherwise the first summary dated today |
| Dashboard.WeightByDateIsLast | app/dashboard/page.tsx:79-81 | the date-to-weight map has one entry per date, holding the weight of the last summary with that date |
| Dashboard.ExtendRun | app/dashboard/page.tsx:84-87 | an active day just before a run of active days extends it by one |
| Dashboard.StreakBounded | app/dashboard/page.tsx:83-91 | a run of `n` active days needs at least `n` distinct dates |
| Dashboard.CurrentStreak | app/dashboard/page.tsx:68-94 | 0 for a non-array input; otherwise days `today .. today-(n-1)` are present with weight > 0 and day `today-n` is not (so 0 when today is inactive), and `n` is at most the number of distinct dates |
| Registration.Validate | app/api/auth/register/route.ts:9-19 | each of the three messages is returned exactly when its check is the first to fail; success exactly when all fields are present, the passwords match and the length is at least 6 |
| Registration.CaughtMessage | app/api/auth/register/route.ts:33-35 | an `Error` keeps its message; anything else becomes "Registration failed" |
| Registration.Handle | app/api/auth/register/route.ts:5-36 | `userOps.register` is called, with the body's fields, exactly when the body parsed and validated; the response is 200 with the user exactly when register and setSession both succeed; a parse failure, a failing check, a throwing `register` or a throwing `setSession` each gives 400 with that failure's message (an `Error`'s own message, otherwise "Registration failed") |

## Left out

- The Postgres pool and SQL (`lib/db.ts`) are replaced by the in-memory maps of
  `Aggregation.Database`. The read-then-upsert of `updateDailySummary` can lose an update when
  two requests overlap; the model has one sequential caller.
- Reading the clock: `today` is a parameter everywhere, and so is the heatmap's `startDate`.
  `setFullYear` (including its 29 February behaviour) is not modelled.
- Time zones: `toISOString` is UTC while `getDay` and `getMonth` are local. All dates are plain
  day numbers here.
- Aggregation.Database.CreateTask: the `tasks` table definition is not part of this model, so
  a failing INSERT (for example a duplicate id) is not modelled. The task is stored and the
  summary updated; callers generate fresh ids with `generateId()`.
- Aggregation.Task carries only id, user and tag ids. Title, description, duration, project,
  completion and timestamps do not affect the aggregate.
- `taskOps.list`, `listByProject` and `get` and the `userOps`/`projectOps` queries are not
  modelled. They do not touch the daily aggregate.
- `taskOps.update` (lib/db/actions.ts:180-191) is not modelled, and `Aggregation.Database` has no
  update operation. It rewrites a task's `tags` without adjusting any daily summary, and
  `taskOps.delete` then subtracts the new tags. A task created with tags A, updated to tags B
  and then deleted leaves +A -B in the aggregate.
- Aggregation.CreateThenDeleteRestores: holds only when no `taskOps.update` changes the task's
  tags between the create and the delete.
- Heatmap.GridWithLabels: the `isMounted` / `Array.isArray(data)` guard, which leaves the state
  untouched, is not modelled. The tag fetch and all rendering are also left out: the month-name
  text from `toLocaleString`, label pixel offsets, tooltips and the per-tag percentage bars
  (floating-point division).
- Heatmap.MonthLabel records the month index 0..11 instead of a short month name.
- Heatmap.GetColor and Dashboard.AllTimeTagWeights: weights are unbounded integers. JavaScript
  sums them as doubles, which only differs beyond 2^53.
- Registration.Validate: a body field that is present but not a string is treated as missing.
  JavaScript would accept, for example, a non-zero number as a password and skip the length
  check.
- Registration.Validate: password length counts characters. JavaScript's `length` counts UTF-16
  code units, so characters outside the Basic Multilingual Plane count twice there.
- Registration.Handle: `userOps.register` and `setSession` are inputs, given as the outcome
  they produce. `lib/storage` is not part of this model, and neither is the duplicate-email
  check or password hashing. The response's session cookie is not modelled.
- Registration.Handle: assumes `userOps.register` returns or throws synchronously. The route
  calls it without `await` (app/api/auth/register/route.ts:21), while the login route awaits
  `userOps.login`. If `register` is async, as the database version at lib/db/actions.ts:78 is,
  the route answers 200 with undefined user fields even when registration fails, and the
  rejection escapes the `catch`. That behaviour is not modelled.
- Session handling, JWTs, middleware and the other route handlers are not modelled.

=== FILE: aggregation.dfy ===
/**
  The daily aggregate of weighted tag activity (lib/db/actions.ts, `updateDailySummary` and the
  two task operations that call it). The store is an in-memory map keyed by (user, day); "today"
  is passed in by the caller instead of being read from the clock.
 */
module Aggregation {
  import opened Wrappers
  import opened TagWeights
  import Tags
  import Calendar

  type UserId = string
  type Key = (UserId, Calendar.Day)

  /** A row of `daily_summaries`. */
  datatype DailySummary = DailySummary(date: Calendar.Day, weight: int, userId: UserId, tagWeights: WeightMap)

  /** The task fields the aggregate depends on; title, description and the rest are opaque here. */
  datatype Task = Task(id: string, userId: UserId, tags: seq<string>)

  /** A stored summary is balanced when its total equals the sum of its per-tag entries. */
  ghost predicate Balanced(s: DailySummary)
  {
    s.weight == Sum(s.tagWeights)
  }

  /** The summary the update starts from: the stored one, or a zero summary when none exists. */
  function Current(rows: map<Key, DailySummary>, userId: UserId, today: Calendar.Day): (s: DailySummary)
    ensures (userId, today) !in rows ==> s.weight == 0 && s.tagWeights == map[] && Balanced(s)
    ensures (userId, today) in rows ==> s == rows[(userId, today)]
  {
    if (userId, today) in rows then rows[(userId, today)]
    else DailySummary(today, 0, userId, map[])
  }

  /** `tagIds.map(tagOps.get).filter(Boolean)`: resolved tags, in order, unknown ids dropped. */
  function Resolve(tagIds: seq<string>): (tags: seq<Tags.Tag>)
    ensures |tags| == KnownCount(tagIds) <= |tagIds|
    ensures forall i :: 0 <= i < |tags| ==> Tags.Get(tags[i].id) == Some(tags[i])
  {
    if tagIds == [] then []
    else
      var last := tagIds[|tagIds| - 1];
      Resolve(tagIds[..|tagIds| - 1]) + match Tags.Get(last) case Some(t) => [t] case None => []
  }

  /** How often `id` occurs in `ids`. */
  function Occurrences(ids: seq<string>, id: string): nat
  {
    if ids == [] then 0
    else Occurrences(ids[..|ids| - 1], id) + if ids[|ids| - 1] == id then 1 else 0
  }

  /** Sum of `tag.weight * multiplier` over the tags in `tags`. */
  function Delta(tags: seq<Tags.Tag>, multiplier: int): int
  {
    if tags == [] then 0 else Delta(tags[..|tags| - 1], multiplier) + tags[|tags| - 1].weight * multiplier
  }

  /** Sum of `tag.weight * multiplier` over the tags in `tags` whose id is `id`. */
  function DeltaFor(tags: seq<Tags.Tag>, id: string, multiplier: int): int
  {
    if tags == [] then 0
    else DeltaFor(tags[..|tags| - 1], id, multiplier)
         + if tags[|tags| - 1].id == id then tags[|tags| - 1].weight * multiplier else 0
  }

  function IdsOf(tags: seq<Tags.Tag>): set<string>
  {
    set t | t in tags :: t.id
  }

  /**
    Closed form of the update: every tag occurrence adds `weight * multiplier` both to the total
    and to its own entry; keys that no tag touches keep their values.
   */
  function Applied(s: DailySummary, tags: seq<Tags.Tag>, multiplier: int): DailySummary
  {
    s.(weight := s.weight + Delta(tags, multiplier),
       tagWeights := map k | k in s.tagWeights.Keys + IdsOf(tags) :: Get0(s.tagWeights, k) + DeltaFor(tags, k, multiplier))
  }

  /** One iteration of the `forEach` body. */
  function Step(s: DailySummary, tag: Tags.Tag, multiplier: int): DailySummary
  {
    var w := tag.weight * multiplier;
    s.(weight := s.weight + w, tagWeights := s.tagWeights[tag.id := Get0(s.tagWeights, tag.id) + w])
  }

  lemma {:induction false} AppliedSnocKeys(s: DailySummary, tags: seq<Tags.Tag>, t: Tags.Tag, multiplier: int)
    ensures Applied(s, tags + [t], multiplier).tagWeights.Keys
         == Step(Applied(s, tags, multiplier), t, multiplier).tagWeights.Keys
  {
    var tags' := tags + [t];
    assert IdsOf(tags') == IdsOf(tags) + {t.id} by {
      assert forall x :: x in tags' <==> x in tags || x == t;
    }
  }

  lemma {:induction false} AppliedSnocEntry(s: DailySummary, tags: seq<Tags.Tag>, t: Tags.Tag, multiplier: int, k: string)
    requires k in Applied(s, tags + [t], multiplier).tagWeights
    requires k in Step(Applied(s, tags, multiplier), t, multiplier).tagWeights
    ensures Applied(s, tags + [t], multiplier).tagWeights[k]
         == Step(Applied(s, tags, multiplier), t, multiplier).tagWeights[k]
  {
    DeltaForSnoc(tags, t, k, multiplier);
    if k !in Applied(s, tags, multiplier).tagWeights {
      NoDeltaForAbsent(tags, k, multiplier);
    }
  }

  /** Applying one more tag is one more step of the loop. */
  lemma {:induction false} AppliedSnoc(s: DailySummary, tags: seq<Tags.Tag>, t: Tags.Tag, multiplier: int)
    ensures Applied(s, tags + [t], multiplier) == Step(Applied(s, tags, multiplier), t, multiplier)
  {
    DeltaSnoc(tags, t, multiplier);
    var a := Applied(s, tags + [t], multiplier).tagWeights;
    var b := Step(Applied(s, tags, multiplier), t, multiplier).tagWeights;
    AppliedSnocKeys(s, tags, t, multiplier);
    forall k | k in a
      ensures a[k] == b[k]
    {
      AppliedSnocEntry(s, tags, t, multiplier, k);
    }
    assert a == b;
  }

  /** With no tags the summary is unchanged. */
  lemma {:induction false} AppliedNothing(s: DailySummary, multiplier: int)
    ensures Applied(s, [], multiplier) == s
  {
    assert Applied(s, [], multiplier).tagWeights == s.tagWeights;
  }

  /** How far the total is from the sum of the per-tag entries (zero for a balanced summary). */
  ghost function Imbalance(s: DailySummary): int
  {
    Sum(s.tagWeights) - s.weight
  }

  /** One loop step adds the same amount to the total and to one entry. */
  lemma {:induction false} StepKeepsBalance(a: DailySummary, t: Tags.Tag, multiplier: int)
    ensures Imbalance(Step(a, t, multiplier)) == Imbalance(a)
  {
    var w := t.weight * multiplier;
    var v := Get0(a.tagWeights, t.id) + w;
    SumUpdate(a.tagWeights, t.id, v);
  }

  /** The loop keeps `weight - Sum(tagWeights)` unchanged, so a balanced summary stays balanced. */
  lemma {:induction false} AppliedKeepsBalance(s: DailySummary, tags: seq<Tags.Tag>, multiplier: int)
    ensures Imbalance(Applied(s, tags, multiplier)) == Imbalance(s)
    decreases |tags|
  {
    if tags == [] {
      AppliedNothing(s, multiplier);
    } else {
      var init := tags[..|tags| - 1];
      var t := tags[|tags| - 1];
      assert tags == init + [t];
      AppliedKeepsBalance(s, init, multiplier);
      AppliedSnoc(s, init, t, multiplier);
      StepKeepsBalance(Applied(s, init, multiplier), t, multiplier);
    }
  }

  /** Keys that no resolved tag names keep their presence and their value. */
  lemma {:induction false} AppliedOutsideTags(s: DailySummary, tags: seq<Tags.Tag>, multiplier: int, k: string)
    requires k !in IdsOf(tags)
    ensures k in Applied(s, tags, multiplier).tagWeights <==> k in s.tagWeights
    ensures Get0(Applied(s, tags, multiplier).tagWeights, k) == Get0(s.tagWeights, k)
  {
    NoDeltaForAbsent(tags, k, multiplier);
  }

  lemma {:induction false} MulSucc(n: int, m: int)
    ensures (n + 1) * m == n * m + m
  {
  }

  lemma {:induction false} ResolveSnocKnown(tagIds: seq<string>, x: string, t: Tags.Tag)
    requires Tags.Get(x) == Some(t)
    ensures Resolve(tagIds + [x]) == Resolve(tagIds) + [t]
  {
    assert (tagIds + [x])[..|tagIds|] == tagIds;
  }

  lemma {:induction false} ResolveSnocUnknown(tagIds: seq<string>, x: string)
    requires Tags.Get(x).None?
    ensures Resolve(tagIds + [x]) == Resolve(tagIds)
  {
    assert (tagIds + [x])[..|tagIds|] == tagIds;
  }

  lemma {:induction false} OccurrencesSnoc(tagIds: seq<string>, x: string, id: string)
    ensures Occurrences(tagIds + [x], id) == Occurrences(tagIds, id) + if x == id then 1 else 0
  {
    assert (tagIds + [x])[..|tagIds|] == tagIds;
  }

  lemma {:induction false} DeltaSnoc(tags: seq<Tags.Tag>, t: Tags.Tag, multiplier: int)
    ensures Delta(tags + [t], multiplier) == Delta(tags, multiplier) + t.weight * multiplier
  {
    assert (tags + [t])[..|tags|] == tags;
  }

  lemma {:induction false} DeltaForSnoc(tags: seq<Tags.Tag>, t: Tags.Tag, id: string, multiplier: int)
    ensures DeltaFor(tags + [t], id, multiplier)
         == DeltaFor(tags, id, multiplier) + if t.id == id then t.weight * multiplier else 0
  {
    assert (tags + [t])[..|tags|] == tags;
  }

  /**
    Unknown ids contribute nothing to a tag's entry; each known id contributes `weight *
    multiplier` once per occurrence (there is no de-duplication).
   */
  lemma {:induction false} ResolvedDeltaFor(tagIds: seq<string>, id: string, multiplier: int)
    ensures DeltaFor(Resolve(tagIds), id, multiplier)
         == if Tags.Get(id).Some? then Occurrences(tagIds, id) * multiplier else 0
    decreases |tagIds|
  {
    if tagIds != [] {
      var init := tagIds[..|tagIds| - 1];
      var last := tagIds[|tagIds| - 1];
      assert tagIds == init + [last];
      ResolvedDeltaFor(init, id, multiplier);
      OccurrencesSnoc(init, last, id);
      var before := DeltaFor(Resolve(init), id, multiplier);
      match Tags.Get(last)
      case None =>
        ResolveSnocUnknown(init, last);
        assert last == id ==> Tags.Get(id).None?;
      case Some(t) =>
        ResolveSnocKnown(init, last, t);
        DeltaForSnoc(Resolve(init), t, id, multiplier);
        if last == id {
          assert t.id == id && t.weight == 1;
          assert DeltaFor(Resolve(tagIds), id, multiplier) == before + multiplier;
          MulSucc(Occurrences(init, id), multiplier);
        } else {
          assert DeltaFor(Resolve(tagIds), id, multiplier) == before;
        }
    }
  }

  /** The day's total moves by `multiplier` once per occurrence of each of the three known ids. */
  lemma {:induction false} ResolvedDelta(tagIds: seq<string>, multiplier: int)
    ensures Delta(Resolve(tagIds), multiplier) == KnownCount(tagIds) * multiplier
    decreases |tagIds|
  {
    if tagIds != [] {
      var init := tagIds[..|tagIds| - 1];
      var last := tagIds[|tagIds| - 1];
      assert tagIds == init + [last];
      ResolvedDelta(init, multiplier);
      KnownCountSnoc(init, last);
      match Tags.Get(last)
      case None =>
        ResolveSnocUnknown(init, last);
      case Some(t) =>
        ResolveSnocKnown(init, last, t);
        DeltaSnoc(Resolve(init), t, multiplier);
        MulSucc(KnownCount(init), multiplier);
    }
  }

  /** How many of `tagIds` name one of the three catalog tags. */
  function KnownCount(tagIds: seq<string>): nat
  {
    if tagIds == [] then 0 else KnownCount(tagIds[..|tagIds| - 1]) + if Tags.Get(tagIds[|tagIds| - 1]).Some? then 1 else 0
  }

  lemma {:induction false} KnownCountSnoc(tagIds: seq<string>, x: string)
    ensures KnownCount(tagIds + [x]) == KnownCount(tagIds) + if Tags.Get(x).Some? then 1 else 0
  {
    assert (tagIds + [x])[..|tagIds|] == tagIds;
  }

  /** The closed form over the first `i` tags is `i` steps of the loop. */
  lemma {:induction false} AppliedPrefix(s: DailySummary, tags: seq<Tags.Tag>, i: nat, multiplier: int)
    requires i <= |tags|
    ensures i == 0 ==> Applied(s, tags[..i], multiplier) == s
    ensures i == |tags| ==> tags[..i] == tags
    ensures 0 < i ==> Applied(s, tags[..i], multiplier) == Step(Applied(s, tags[..i - 1], multiplier), tags[i - 1], multiplier)
  {
    if i == 0 {
      AppliedNothing(s, multiplier);
    } else {
      assert tags[..i] == tags[..i - 1] + [tags[i - 1]];
      AppliedSnoc(s, tags[..i - 1], tags[i - 1], multiplier);
    }
  }

  /**
    The `forEach` loop of `updateDailySummary`, run on a local copy of the summary.
    Its result is the closed form `Applied`; the total moves exactly as the per-tag sum does.
   */
  method ApplyTags(s: DailySummary, tags: seq<Tags.Tag>, multiplier: int) returns (r: DailySummary)
    ensures r == Applied(s, tags, multiplier)
    ensures r.date == s.date && r.userId == s.userId
    ensures Imbalance(r) == Imbalance(s)
    ensures forall k :: k !in IdsOf(tags) ==> (k in r.tagWeights <==> k in s.tagWeights) && Get0(r.tagWeights, k) == Get0(s.tagWeights, k)
  {
    r := s;
    AppliedPrefix(s, tags, 0, multiplier);
    for i := 0 to |tags|
      invariant r == Applied(s, tags[..i], multiplier)
    {
      ghost var before := r;
      var tag := tags[i];
      var weight := tag.weight * multiplier;
      r := r.(weight := r.weight + weight);
      r := r.(tagWeights := r.tagWeights[tag.id := Get0(r.tagWeights, tag.id) + weight]);
      assert r == Step(before, tag, multiplier);
      AppliedPrefix(s, tags, i + 1, multiplier);
    }
    AppliedPrefix(s, tags, |tags|, multiplier);
    AppliedKeepsBalance(s, tags, multiplier);
    forall k | k !in IdsOf(tags)
      ensures (k in r.tagWeights <==> k in s.tagWeights) && Get0(r.tagWeights, k) == Get0(s.tagWeights, k)
    {
      AppliedOutsideTags(s, tags, multiplier, k);
    }
  }

  lemma {:induction false} NoDeltaForAbsent(tags: seq<Tags.Tag>, id: string, multiplier: int)
    requires id !in IdsOf(tags)
    ensures DeltaFor(tags, id, multiplier) == 0
    decreases |tags|
  {
    if tags != [] {
      var init := tags[..|tags| - 1];
      assert IdsOf(init) <= IdsOf(tags) by {
        forall x | x in IdsOf(init) ensures x in IdsOf(tags) {
          var t :| t in init && t.id == x;
          assert t in tags;
        }
      }
      assert tags[|tags| - 1] in tags;
      NoDeltaForAbsent(init, id, multiplier);
    }
  }

  /** The store after one `updateDailySummary(userId, tagIds, multiplier)` on `today`. */
  function Upserted(rows: map<Key, DailySummary>, userId: UserId, tagIds: seq<string>, today: Calendar.Day, multiplier: int)
    : map<Key, DailySummary>
  {
    rows[(userId, today) := Applied(Current(rows, userId, today), Resolve(tagIds), multiplier)]
  }

  /** The upsert writes the (userId, today) row only; every other user and day is untouched. */
  lemma {:induction false} UpsertTouchesOnlyToday(rows: map<Key, DailySummary>, userId: UserId, tagIds: seq<string>, today: Calendar.Day, multiplier: int, key: Key)
    requires key != (userId, today)
    ensures key in Upserted(rows, userId, tagIds, today, multiplier) <==> key in rows
    ensures key in rows ==> Upserted(rows, userId, tagIds, today, multiplier)[key] == rows[key]
    ensures (userId, today) in Upserted(rows, userId, tagIds, today, multiplier)
  {
  }

  lemma {:induction false} NegMul(w: int, m: int)
    ensures w * -m == -(w * m)
  {
  }

  /** Scaling by `-m` negates every contribution. */
  lemma {:induction false} DeltaNegated(tags: seq<Tags.Tag>, id: string, multiplier: int)
    ensures Delta(tags, -multiplier) == -Delta(tags, multiplier)
    ensures DeltaFor(tags, id, -multiplier) == -DeltaFor(tags, id, multiplier)
    decreases |tags|
  {
    if tags != [] {
      DeltaNegated(tags[..|tags| - 1], id, multiplier);
      NegMul(tags[|tags| - 1].weight, multiplier);
    }
  }

  /**
    Additive inverse on one summary: applying the same tags with `m` and then with `-m`
    restores the total and every per-tag value (a missing key reads as 0).
   */
  lemma {:induction false} AppliedInverse(s: DailySummary, tags: seq<Tags.Tag>, multiplier: int)
    ensures var r := Applied(Applied(s, tags, multiplier), tags, -multiplier);
            && r.weight == s.weight && r.date == s.date && r.userId == s.userId
            && r.tagWeights.Keys == s.tagWeights.Keys + IdsOf(tags)
            && forall k :: Get0(r.tagWeights, k) == Get0(s.tagWeights, k)
  {
    var mid := Applied(s, tags, multiplier);
    var r := Applied(mid, tags, -multiplier);
    DeltaNegated(tags, "", multiplier);
    forall k
      ensures Get0(r.tagWeights, k) == Get0(s.tagWeights, k)
    {
      DeltaNegated(tags, k, multiplier);
      if k !in s.tagWeights.Keys + IdsOf(tags) {
        assert k !in r.tagWeights;
      }
    }
  }

  /**
    Additive inverse in the store: creating and then deleting a task with the same tags on the
    same day restores that day's total and every per-tag value, and no other row changes.
   */
  lemma {:induction false} CreateThenDeleteRestores(rows: map<Key, DailySummary>, userId: UserId, tagIds: seq<string>, today: Calendar.Day)
    ensures var after := Upserted(Upserted(rows, userId, tagIds, today, 1), userId, tagIds, today, -1);
            var before := Current(rows, userId, today);
            && (userId, today) in after
            && after[(userId, today)].weight == before.weight
            && (forall k :: Get0(after[(userId, today)].tagWeights, k) == Get0(before.tagWeights, k))
            && (forall key :: key != (userId, today) ==> (key in after <==> key in rows))
            && (forall key :: key != (userId, today) && key in rows ==> after[key] == rows[key])
  {
    var before := Current(rows, userId, today);
    var tags := Resolve(tagIds);
    assert Current(Upserted(rows, userId, tagIds, today, 1), userId, today) == Applied(before, tags, 1);
    AppliedInverse(before, tags, 1);
  }

  /**
    No clamping: a delete whose known tag was never added on that day drives the total and that
    tag's entry to -1.
   */
  lemma {:induction false} DeleteWithoutCreateGoesNegative(rows: map<Key, DailySummary>, userId: UserId, id: string, today: Calendar.Day)
    requires Tags.Get(id).Some?
    requires (userId, today) !in rows
    ensures var after := Upserted(rows, userId, [id], today, -1)[(userId, today)];
            after.weight == -1 && after.tagWeights == map[id := -1]
  {
    var t := Tags.Get(id).value;
    assert Resolve([id]) == [t] by {
      ResolveSnocKnown([], id, t);
      assert [] + [id] == [id];
      assert [] + [t] == [t];
    }
    var zero := Current(rows, userId, today);
    assert Applied(zero, [t], -1) == Step(zero, t, -1) by {
      AppliedSnoc(zero, [], t, -1);
      AppliedNothing(zero, -1);
      assert [] + [t] == [t];
    }
  }

  /** Every stored row is keyed by its own user and day and is balanced. */
  ghost predicate RowsValid(rows: map<Key, DailySummary>)
  {
    forall key :: key in rows ==> rows[key].userId == key.0 && rows[key].date == key.1 && Balanced(rows[key])
  }

  /** The update keeps every row keyed by its user and day and balanced. */
  lemma {:induction false} UpsertedValid(rows: map<Key, DailySummary>, userId: UserId, tagIds: seq<string>, today: Calendar.Day, multiplier: int)
    requires RowsValid(rows)
    ensures RowsValid(Upserted(rows, userId, tagIds, today, multiplier))
  {
    var cur := Current(rows, userId, today);
    var row := Applied(cur, Resolve(tagIds), multiplier);
    assert Balanced(cur);
    AppliedKeepsBalance(cur, Resolve(tagIds), multiplier);
    assert row.userId == userId && row.date == today && Balanced(row);
    var r := Upserted(rows, userId, tagIds, today, multiplier);
    assert r == rows[(userId, today) := row];
    forall key | key in r
      ensures r[key].userId == key.0 && r[key].date == key.1 && Balanced(r[key])
    {
      if key != (userId, today) {
        assert r[key] == rows[key];
      }
    }
  }

  /** The `daily_summaries` and `tasks` tables of one database, for a single sequential caller. */
  class Database {
    var summaries: map<Key, DailySummary>
    var tasks: map<string, Task>

    ghost predicate Valid()
      reads this
    {
      RowsValid(summaries)
    }

    constructor ()
      ensures Valid() && summaries == map[] && tasks == map[]
    {
      summaries := map[];
      tasks := map[];
    }

    /** `updateDailySummary(userId, tagIds, multiplier)` with the day of the call passed as `today`. */
    method UpdateDailySummary(userId: UserId, tagIds: seq<string>, today: Calendar.Day, multiplier: int)
      requires Valid()
      modifies this`summaries
      ensures Valid()
      ensures summaries == Upserted(old(summaries), userId, tagIds, today, multiplier)
    {
      var summary: DailySummary;
      if (userId, today) in summaries {
        summary := summaries[(userId, today)];
      } else {
        summary := DailySummary(today, 0, userId, map[]);
      }
      var tags := Resolve(tagIds);
      summary := ApplyTags(summary, tags, multiplier);
      UpsertedValid(summaries, userId, tagIds, today, multiplier);
      summaries := summaries[(userId, today) := summary];
    }

    /** `taskOps.create`: store the task, then add its tags to today's summary with +1. */
    method CreateTask(task: Task, today: Calendar.Day)
      requires Valid()
      modifies this
      ensures Valid()
      ensures tasks == old(tasks)[task.id := task]
      ensures summaries == Upserted(old(summaries), task.userId, task.tags, today, 1)
    {
      tasks := tasks[task.id := task];
      UpdateDailySummary(task.userId, task.tags, today, 1);
    }

    /**
      `taskOps.delete`: when the task exists, remove it and subtract its stored tags from
      today's summary with -1; an unknown id changes nothing.
     */
    method DeleteTask(id: string, today: Calendar.Day)
      requires Valid()
      modifies this
      ensures Valid()
      ensures id !in old(tasks) ==> tasks == old(tasks) && summaries == old(summaries)
      ensures id in old(tasks) ==>
                && tasks == old(tasks) - {id}
                && summaries == Upserted(old(summaries), old(tasks)[id].userId, old(tasks)[id].tags, today, -1)
    {
      if id in tasks {
        var task := tasks[id];
        tasks := tasks - {id};
        UpdateDailySummary(task.userId, task.tags, today, -1);
      }
    }
  }
}

=== FILE: calendar.dfy ===
/**
  Dates as day numbers: day 0 is 1970-01-01 (a Thursday) and consecutive days differ by one.
  The heatmap needs `Date.getDay` (weekday, 0 = Sunday) and `Date.getMonth` (0 = January); the
  civil conversion below counts in 400-year eras that start on March 1 of year 0.
 */
module Calendar {

  type Day = int

  /** `getDay()`: 0 = Sunday ... 6 = Saturday. */
  function Weekday(d: Day): (w: int)
    ensures 0 <= w < 7
    ensures w == 0 <==> (d - 3) % 7 == 0
  {
    (d + 4) % 7
  }

  /** The day after a Saturday is a Sunday; otherwise the weekday moves on by one. */
  lemma WeekdayNext(d: Day)
    ensures Weekday(d + 1) == if Weekday(d) == 6 then 0 else Weekday(d) + 1
  {
  }

  /** A calendar date; `month` runs 1..12 as in the usual notation. */
  datatype Civil = Civil(year: int, month: int, day: int)

  /** The number of days in the given month of the proleptic Gregorian calendar. */
  function DaysInMonth(year: int, month: int): int
    requires 1 <= month <= 12
  {
    if month == 2 then (if year % 4 == 0 && (year % 100 != 0 || year % 400 == 0) then 29 else 28)
    else if month in {4, 6, 9, 11} then 30
    else 31
  }

  /**
    A day number split into its position in the calendar: the 400-year era, the century of the
    era, the four-year block of the century, the year of the block and the day of that year,
    every count starting on March 1.
   */
  datatype Position = Position(era: int, century: int, quad: int, yoq: int, doy: int)

  function Locate(d: Day): (p: Position)
    ensures 0 <= p.century <= 3 && 0 <= p.quad <= 24 && 0 <= p.yoq <= 3 && 0 <= p.doy <= 365
    ensures p.doy == 365 ==> p.yoq == 3 && (p.quad < 24 || p.century == 3)
    ensures d + 719468 == 146097 * p.era + 36524 * p.century + 1461 * p.quad + 365 * p.yoq + p.doy
  {
    var z := d + 719468;              // days since 0000-03-01
    var era := z / 146097;
    var doe := z % 146097;            // day of era, 0..146096
    var century := if doe / 36524 < 3 then doe / 36524 else 3;
    var doc := doe - 36524 * century; // day of century, 0..36524
    var quad := doc / 1461;
    var doq := doc % 1461;            // day of four-year block, 0..1460
    var yoq := if doq / 365 < 3 then doq / 365 else 3;
    Position(era, century, quad, yoq, doq - 365 * yoq)
  }

  /** Month index counted from March (0) to February (11) for a day of a March-based year. */
  function MarchMonth(doy: int): (mp: int)
    requires 0 <= doy <= 365
    ensures 0 <= mp <= 11
    ensures 0 <= doy - (153 * mp + 2) / 5 <= 30
    ensures (153 * mp + 2) / 5 <= doy
    ensures mp < 11 ==> doy < (153 * (mp + 1) + 2) / 5
  {
    (5 * doy + 2) / 153
  }

  /** Day number to calendar date (proleptic Gregorian). */
  function CivilFromDays(d: Day): (c: Civil)
    ensures 1 <= c.month <= 12 && 1 <= c.day <= DaysInMonth(c.year, c.month)
  {
    var p := Locate(d);
    DayFitsMonth(p);
    var mp := MarchMonth(p.doy);
    var day := p.doy - (153 * mp + 2) / 5 + 1;
    var month := if mp < 10 then mp + 3 else mp - 9;
    var year := 400 * p.era + 100 * p.century + 4 * p.quad + p.yoq;
    Civil(if month <= 2 then year + 1 else year, month, day)
  }

  /**
    The day of the month computed from a position never exceeds the length of that month; the
    only day 365 of a March-based year is the 29 February of a leap year.
   */
  lemma DayFitsMonth(p: Position)
    requires 0 <= p.century <= 3 && 0 <= p.quad <= 24 && 0 <= p.yoq <= 3 && 0 <= p.doy <= 365
    requires p.doy == 365 ==> p.yoq == 3 && (p.quad < 24 || p.century == 3)
    ensures var mp := MarchMonth(p.doy);
            var month := if mp < 10 then mp + 3 else mp - 9;
            var year := 400 * p.era + 100 * p.century + 4 * p.quad + p.yoq;
            p.doy - (153 * mp + 2) / 5 + 1 <= DaysInMonth(if month <= 2 then year + 1 else year, month)
  {
    var mp := MarchMonth(p.doy);
    var month := if mp < 10 then mp + 3 else mp - 9;
    var year := 400 * p.era + 100 * p.century + 4 * p.quad + p.yoq;
    if mp < 11 {
      MonthLength(mp, year);
    } else if p.doy == 365 {
      var y := year + 1;
      assert y == 400 * p.era + 100 * p.century + 4 * (p.quad + 1);
      assert y % 4 == 0 && (y % 100 != 0 || y % 400 == 0);
    }
  }

  /** The months from March to January have the lengths the March-based day counts give them. */
  lemma MonthLength(mp: int, year: int)
    requires 0 <= mp < 11
    ensures (153 * (mp + 1) + 2) / 5 - (153 * mp + 2) / 5
            == DaysInMonth(year, if mp < 10 then mp + 3 else mp - 9)
  {
    if mp == 0 {
    } else if mp == 1 {
    } else if mp == 2 {
    } else if mp == 3 {
    } else if mp == 4 {
    } else if mp == 5 {
    } else if mp == 6 {
    } else if mp == 7 {
    } else if mp == 8 {
    } else if mp == 9 {
    }
  }

  /** Calendar date to day number; the inverse of `CivilFromDays`. */
  function DaysFromCivil(c: Civil): Day
  {
    var y := if c.month <= 2 then c.year - 1 else c.year;
    var era := y / 400;
    var yoe := y % 400;
    var mp := (c.month + 9) % 12;
    var doy := (153 * mp + 2) / 5 + c.day - 1;
    var doe := 365 * yoe + yoe / 4 - yoe / 100 + doy;
    146097 * era + doe - 719468
  }

  /** `getMonth()`: 0 = January ... 11 = December. */
  function MonthOf(d: Day): (m: int)
    ensures 0 <= m < 12
  {
    CivilFromDays(d).month - 1
  }

  /** Leap-day counts inside an era: the year of the era determines its century and block. */
  lemma YearOfEra(century: int, quad: int, yoq: int)
    requires 0 <= century <= 3 && 0 <= quad <= 24 && 0 <= yoq <= 3
    ensures var yoe := 100 * century + 4 * quad + yoq;
            0 <= yoe < 400 && yoe / 4 == 25 * century + quad && yoe / 100 == century
  {
  }

  lemma EraOfYear(era: int, yoe: int)
    requires 0 <= yoe < 400
    ensures (400 * era + yoe) / 400 == era && (400 * era + yoe) % 400 == yoe
  {
  }

  /** Every day number is the day number of its own calendar date. */
  lemma {:induction false} CivilRoundTrip(d: Day)
    ensures DaysFromCivil(CivilFromDays(d)) == d
  {
    var p := Locate(d);
    var mp := MarchMonth(p.doy);
    var c := CivilFromDays(d);
    var yoe := 100 * p.century + 4 * p.quad + p.yoq;
    YearOfEra(p.century, p.quad, p.yoq);
    EraOfYear(p.era, yoe);
    assert (if c.month <= 2 then c.year - 1 else c.year) == 400 * p.era + yoe;
    assert (c.month + 9) % 12 == mp;
    assert (153 * mp + 2) / 5 + c.day - 1 == p.doy;
    assert 365 * yoe + yoe / 4 - yoe / 100 == 36524 * p.century + 1461 * p.quad + 365 * p.yoq;
  }

  /** 2023-03-01 is day 19417, a Wednesday in March. */
  lemma {:induction false} March2023()
    ensures DaysFromCivil(Civil(2023, 3, 1)) == 19417
    ensures MonthOf(19417) == 2 && Weekday(19417) == 3
  {
    assert Locate(19417) == Position(5, 0, 5, 3, 0);
  }

  /** 2024-03-01, a year and a leap day after 2023-03-01, is in March again. */
  lemma {:induction false} March2024()
    ensures DaysFromCivil(Civil(2024, 3, 1)) == 19783
    ensures MonthOf(19783) == 2
  {
    assert Locate(19783) == Position(5, 0, 6, 0, 0);
  }
}

=== FILE: dashboard.dfy ===
/**
  The dashboard's derived figures (app/dashboard/page.tsx): all-time per-tag totals, today's
  summary and the current streak. `summaries` is None when the fetched value is missing or is
  not an array; `today` is an input.
 */
module Dashboard {
  import opened Wrappers
  import opened TagWeights
  import opened Summaries
  import Calendar

  /** The tag weights of one summary, or the empty map when it has none. */
  function WeightsOf(s: DaySummary): WeightMap
  {
    if s.tagWeights.Some? then s.tagWeights.value else map[]
  }

  /** Every tag id that occurs in the tag weights of some summary. */
  function TagsSeen(ss: seq<DaySummary>): set<string>
  {
    if ss == [] then {} else TagsSeen(ss[..|ss| - 1]) + WeightsOf(ss[|ss| - 1]).Keys
  }

  /** The sum of `s.tagWeights[t]` over the summaries that have tag weights. */
  function TotalFor(ss: seq<DaySummary>, t: string): int
  {
    if ss == [] then 0 else TotalFor(ss[..|ss| - 1], t) + Get0(WeightsOf(ss[|ss| - 1]), t)
  }

  /** A tag that never occurs totals zero. */
  lemma {:induction false} TotalForUnseen(ss: seq<DaySummary>, t: string)
    requires t !in TagsSeen(ss)
    ensures TotalFor(ss, t) == 0
  {
    if ss != [] {
      TotalForUnseen(ss[..|ss| - 1], t);
    }
  }

  /**
    `allTimeTagWeights`: for each summary with tag weights, adds each of its entries into the
    running totals.
   */
  method AllTimeTagWeights(summaries: Option<seq<DaySummary>>) returns (weights: WeightMap)
    ensures summaries.None? ==> weights == map[]
    ensures summaries.Some? ==> weights.Keys == TagsSeen(summaries.value)
    ensures summaries.Some? ==> forall t :: Get0(weights, t) == TotalFor(summaries.value, t)
  {
    weights := map[];
    if summaries.None? {
      return;
    }
    var ss := summaries.value;
    for i := 0 to |ss|
      invariant weights.Keys == TagsSeen(ss[..i])
      invariant forall t :: t in weights ==> weights[t] == TotalFor(ss[..i], t)
    {
      assert ss[..i + 1][..i] == ss[..i];
      ghost var before := weights;
      if ss[i].tagWeights.Some? {
        weights := AddWeights(weights, ss[i].tagWeights.value);
      }
      forall t | t in weights
        ensures weights[t] == TotalFor(ss[..i + 1], t)
      {
        if t !in before {
          TotalForUnseen(ss[..i], t);
        }
      }
    }
    assert ss[..|ss|] == ss;
    forall t ensures Get0(weights, t) == TotalFor(ss, t) {
      if t !in weights {
        TotalForUnseen(ss, t);
      }
    }
  }

  /** The inner `for ... in` loop: adds each entry of `tw` into `weights`, a missing entry reading as 0. */
  method AddWeights(weights: WeightMap, tw: WeightMap) returns (r: WeightMap)
    ensures forall t :: t in r <==> t in weights || t in tw
    ensures forall t :: t in r ==> r[t] == Get0(weights, t) + Get0(tw, t)
  {
    r := weights;
    var rest := tw.Keys;
    while rest != {}
      invariant rest <= tw.Keys
      invariant forall t :: t in r <==> t in weights || (t in tw && t !in rest)
      invariant forall t :: t in r ==> r[t] == Get0(weights, t) + (if t in rest then 0 else Get0(tw, t))
      decreases |rest|
    {
      var t :| t in rest;
      r := r[t := Get0(r, t) + tw[t]];
      rest := rest - {t};
    }
  }

  /** `summaries.find(s => s.date === today) || null`, for an array input. */
  function FindDate(ss: seq<DaySummary>, today: Calendar.Day): (r: Option<DaySummary>)
    ensures r.Some? <==> today in Dates(ss)
    ensures r.Some? ==> exists i :: 0 <= i < |ss| && ss[i] == r.value && r.value.date == today
                                    && forall j :: 0 <= j < i ==> ss[j].date != today
  {
    if ss == [] then None
    else if ss[0].date == today then
      Some(ss[0])
    else
      var r := FindDate(ss[1..], today);
      assert forall j :: 0 <= j < |ss| - 1 ==> ss[1..][j] == ss[j + 1];
      assert Dates(ss) == Dates(ss[1..]) + {ss[0].date} by {
        forall d | d in Dates(ss) ensures d in Dates(ss[1..]) + {ss[0].date} {
          var i :| 0 <= i < |ss| && ss[i].date == d;
          if i > 0 { assert ss[1..][i - 1] == ss[i]; }
        }
      }
      if r.Some? then
        assert exists i :: 0 <= i < |ss| && ss[i] == r.value && r.value.date == today
                           && forall j :: 0 <= j < i ==> ss[j].date != today by {
          var i :| 0 <= i < |ss| - 1 && ss[1..][i] == r.value && r.value.date == today
                   && forall j :: 0 <= j < i ==> ss[1..][j].date != today;
          assert ss[i + 1] == r.value;
          forall j | 0 <= j < i + 1 ensures ss[j].date != today {
            if j > 0 { assert ss[j] == ss[1..][j - 1]; }
          }
        }
        r
      else r
  }

  /** `todaySummary`: the first summary dated today, or null; null for a non-array input. */
  function TodaySummary(summaries: Option<seq<DaySummary>>, today: Calendar.Day): (r: Option<DaySummary>)
    ensures summaries.None? ==> r.None?
    ensures summaries.Some? ==> r == FindDate(summaries.value, today)
  {
    if summaries.None? then None else FindDate(summaries.value, today)
  }

  /**
    `new Map(summaries.map(d => [d.date, d.weight]))`: the weight of the last summary for each
    date.
   */
  function WeightByDate(ss: seq<DaySummary>): map<Calendar.Day, int>
  {
    if ss == [] then map[]
    else WeightByDate(ss[..|ss| - 1])[ss[|ss| - 1].date := ss[|ss| - 1].weight]
  }

  /** The map has an entry for each date, holding the weight of the last summary with that date. */
  lemma {:induction false} WeightByDateIsLast(ss: seq<DaySummary>)
    ensures WeightByDate(ss).Keys == Dates(ss)
    ensures forall d :: d in WeightByDate(ss) ==>
              exists i :: IsLast(ss, i) && ss[i].date == d && WeightByDate(ss)[d] == ss[i].weight
  {
    if ss != [] {
      var init := ss[..|ss| - 1];
      var last := ss[|ss| - 1];
      WeightByDateIsLast(init);
      var w := WeightByDate(ss);
      assert Dates(ss) == Dates(init) + {last.date} by {
        forall d | d in Dates(ss) ensures d in Dates(init) + {last.date} {
          var i :| 0 <= i < |ss| && ss[i].date == d;
          if i < |ss| - 1 { assert init[i] == ss[i]; }
        }
        forall d | d in Dates(init) ensures d in Dates(ss) {
          var i :| 0 <= i < |init| && init[i].date == d;
          assert ss[i] == init[i];
        }
      }
      forall d | d in w
        ensures exists i :: IsLast(ss, i) && ss[i].date == d && w[d] == ss[i].weight
      {
        if d == last.date {
          assert IsLast(ss, |ss| - 1);
        } else {
          var i :| IsLast(init, i) && init[i].date == d && WeightByDate(init)[d] == init[i].weight;
          assert ss[i] == init[i];
          LastOfPrefix(ss, i);
        }
      }
    }
  }

  /** Day `d` counts for the streak: it has a summary and the last one for `d` has weight > 0. */
  predicate Active(weights: map<Calendar.Day, int>, d: Calendar.Day)
  {
    d in weights && weights[d] > 0
  }

  /** Each of the `n` days ending with `today` is active. */
  predicate ActiveRun(weights: map<Calendar.Day, int>, today: Calendar.Day, n: nat)
  {
    forall d :: today - n < d <= today ==> Active(weights, d)
  }

  /** An active day just before a run extends it. */
  lemma {:induction false} ExtendRun(weights: map<Calendar.Day, int>, today: Calendar.Day, n: nat)
    requires ActiveRun(weights, today, n) && Active(weights, today - n)
    ensures ActiveRun(weights, today, n + 1)
  {
  }

  /** The days `today`, `today - 1`, ..., `today - (n - 1)`. */
  function DaysBack(today: Calendar.Day, n: nat): (days: set<Calendar.Day>)
    ensures |days| == n
    ensures forall d :: d in days <==> today - n < d <= today
  {
    if n == 0 then {} else
      var days := DaysBack(today, n - 1) + {today - (n - 1)};
      assert today - (n - 1) !in DaysBack(today, n - 1);
      days
  }

  lemma {:induction false} SubsetCard(a: set<Calendar.Day>, b: set<Calendar.Day>)
    requires a <= b
    ensures |a| <= |b|
  {
    assert b == a + (b - a);
  }

  /** n consecutive active days are n distinct dates. */
  lemma {:induction false} StreakBounded(weights: map<Calendar.Day, int>, today: Calendar.Day, n: nat)
    requires ActiveRun(weights, today, n)
    ensures n <= |weights.Keys|
  {
    var days := DaysBack(today, n);
    forall d | d in days ensures d in weights.Keys {
      assert Active(weights, d);
    }
    SubsetCard(days, weights.Keys);
  }

  /**
    `currentStreak`: walks back from today while the day has a summary with weight > 0.
    The result is the exact length of the run of active days ending today, so it is 0 when
    today is not active, whatever the earlier days hold.
   */
  method CurrentStreak(summaries: Option<seq<DaySummary>>, today: Calendar.Day) returns (streak: nat)
    ensures summaries.None? ==> streak == 0
    ensures summaries.Some? ==> ActiveRun(WeightByDate(summaries.value), today, streak)
    ensures summaries.Some? ==> !Active(WeightByDate(summaries.value), today - streak)
    ensures summaries.Some? ==> streak <= |Dates(summaries.value)|
  {
    streak := 0;
    if summaries.None? {
      return;
    }
    var summaryMap := WeightByDate(summaries.value);
    var checkDate := today;
    while true
      invariant checkDate == today - streak
      invariant ActiveRun(summaryMap, today, streak)
      invariant streak <= |summaryMap.Keys|
      decreases |summaryMap.Keys| - streak
    {
      if checkDate in summaryMap && summaryMap[checkDate] > 0 {
        ExtendRun(summaryMap, today, streak);
        StreakBounded(summaryMap, today, streak + 1);
        streak := streak + 1;
        checkDate := checkDate - 1;
      } else {
        break;
      }
    }
    WeightByDateIsLast(summaries.value);
  }
}

=== FILE: heatmap.dfy ===
/**
  The contribution heatmap's projection of daily summaries onto a week-major calendar grid
  (components/contribution-heatmap.tsx): the grid, its month labels and the colour bucket of
  a cell. `today` and the window's first day (one year before `today`) are inputs.
 */
module Heatmap {
  import opened Wrappers
  import opened TagWeights
  import opened Summaries
  import Calendar

  /** A grid cell: None outside the window, otherwise a (possibly zero) summary. */
  type Cell = Option<DaySummary>

  /** The summary shown for a day in the window that has no stored summary. */
  function ZeroDay(d: Calendar.Day): DaySummary
  {
    DaySummary(d, 0, Some(map[]))
  }

  /** The grid's first day: the Sunday on or before `startDate`. */
  function GridStart(startDate: Calendar.Day): (first: Calendar.Day)
    ensures Calendar.Weekday(first) == 0
    ensures startDate - 7 < first <= startDate
  {
    startDate - Calendar.Weekday(startDate)
  }

  /** What the grid shows for day `d`: None before `startDate` or after `today`. */
  function CellAt(dataMap: map<Calendar.Day, DaySummary>, startDate: Calendar.Day, today: Calendar.Day, d: Calendar.Day): Cell
  {
    if d < startDate || today < d then None
    else if d in dataMap then Some(dataMap[d])
    else Some(ZeroDay(d))
  }

  /** The number of week rows: rows are emitted while the row's first day is not after today. */
  function WeekCount(startDate: Calendar.Day, today: Calendar.Day): int
  {
    (today - GridStart(startDate)) / 7 + 1
  }

  /** The seven cells of the row that starts on day `rowStart`. */
  function Row(dataMap: map<Calendar.Day, DaySummary>, startDate: Calendar.Day, today: Calendar.Day, rowStart: Calendar.Day): (row: seq<Cell>)
    ensures |row| == 7
    ensures forall j :: 0 <= j < 7 ==> row[j] == CellAt(dataMap, startDate, today, rowStart + j)
  {
    seq(7, j requires 0 <= j < 7 => CellAt(dataMap, startDate, today, rowStart + j))
  }

  /** The grid's rows, the `i`-th starting `7 * i` days after the grid's first day. */
  predicate IsGrid(weeks: seq<seq<Cell>>, dataMap: map<Calendar.Day, DaySummary>, startDate: Calendar.Day, today: Calendar.Day)
  {
    forall i :: 0 <= i < |weeks| ==> weeks[i] == Row(dataMap, startDate, today, GridStart(startDate) + 7 * i)
  }

  /**
    The `while` loop of the grid effect: week rows of seven cells from the Sunday on or before
    `startDate` until the row that contains `today`.
   */
  method BuildWeeks(data: seq<DaySummary>, startDate: Calendar.Day, today: Calendar.Day) returns (weeks: seq<seq<Cell>>)
    requires startDate <= today
    ensures |weeks| == WeekCount(startDate, today)
    ensures IsGrid(weeks, LatestByDate(data), startDate, today)
  {
    var dataMap := LatestByDate(data);
    var first := GridStart(startDate);
    var current := first;
    weeks := [];
    while current <= today
      invariant current == first + 7 * |weeks|
      invariant |weeks| > 0 ==> first + 7 * (|weeks| - 1) <= today
      invariant IsGrid(weeks, dataMap, startDate, today)
      decreases today - current
    {
      var week := FillWeek(dataMap, startDate, today, current);
      current := current + 7;
      weeks := weeks + [week];
    }
    RowsCoverToday(startDate, today, |weeks|);
  }

  /** The inner `for` loop of the grid effect: the seven cells of the row starting at `rowStart`. */
  method FillWeek(dataMap: map<Calendar.Day, DaySummary>, startDate: Calendar.Day, today: Calendar.Day, rowStart: Calendar.Day)
    returns (week: seq<Cell>)
    ensures week == Row(dataMap, startDate, today, rowStart)
  {
    week := [];
    var current := rowStart;
    for k := 0 to 7
      invariant |week| == k
      invariant current == rowStart + k
      invariant forall j :: 0 <= j < k ==> week[j] == CellAt(dataMap, startDate, today, rowStart + j)
    {
      if startDate <= current && current <= today {
        var summary := if current in dataMap then dataMap[current] else ZeroDay(current);
        week := week + [Some(summary)];
      } else {
        week := week + [None];
      }
      current := current + 1;
    }
  }

  /** The loop stops after the row that contains `today`. */
  lemma {:induction false} RowsCoverToday(startDate: Calendar.Day, today: Calendar.Day, n: int)
    requires GridStart(startDate) + 7 * (n - 1) <= today < GridStart(startDate) + 7 * n
    ensures n == WeekCount(startDate, today)
  {
  }

  /** The last row contains today, and cell `j` of every row falls on weekday `j`. */
  lemma {:induction false} GridShape(startDate: Calendar.Day, today: Calendar.Day, i: int, j: int)
    requires startDate <= today
    requires 0 <= j < 7
    ensures var first := GridStart(startDate);
            first + 7 * (WeekCount(startDate, today) - 1) <= today < first + 7 * WeekCount(startDate, today)
    ensures Calendar.Weekday(GridStart(startDate) + 7 * i + j) == j
  {
    var first := GridStart(startDate);
    assert (first + 4) % 7 == 0;
    assert (first + 7 * i + j + 4) % 7 == j;
  }

  /** A cell inside the window carries its own date, and the stored summary when there is one. */
  lemma {:induction false} CellContents(data: seq<DaySummary>, startDate: Calendar.Day, today: Calendar.Day, d: Calendar.Day)
    ensures var c := CellAt(LatestByDate(data), startDate, today, d);
            && (c.None? <==> d < startDate || today < d)
            && (c.Some? ==> c.value.date == d)
            && (c.Some? && d in Dates(data) ==> c.value in data)
            && (c.Some? && d !in Dates(data) ==> c.value == ZeroDay(d))
  {
  }

  /** `week.find((d) => d)`: the first non-null cell of a week. */
  function FirstDay(week: seq<Cell>): Option<DaySummary>
  {
    if week == [] then None
    else if week[0].Some? then week[0]
    else FirstDay(week[1..])
  }

  /** FirstDay finds a non-null cell exactly when there is one, and no non-null cell precedes it. */
  lemma {:induction false} FirstDayIsFirst(week: seq<Cell>)
    ensures FirstDay(week).Some? <==> exists j :: 0 <= j < |week| && week[j].Some?
    ensures FirstDay(week).Some? ==>
              exists j :: 0 <= j < |week| && week[j] == FirstDay(week) && forall k :: 0 <= k < j ==> week[k].None?
    decreases |week|
  {
    if week != [] && week[0].None? {
      FirstDayIsFirst(week[1..]);
      assert forall j :: 0 <= j < |week| - 1 ==> week[1..][j] == week[j + 1];
      if FirstDay(week).Some? {
        var j :| 0 <= j < |week| - 1 && week[1..][j] == FirstDay(week) && forall k :: 0 <= k < j ==> week[1..][k].None?;
        assert week[j + 1] == FirstDay(week);
        forall k | 0 <= k < j + 1 ensures week[k].None? {
          if k > 0 { assert week[k] == week[1..][k - 1]; }
        }
      }
    } else if week != [] {
      assert week[0] == FirstDay(week);
    }
  }

  /** The month (0 = January) of a week's first non-null cell, if it has one. */
  function WeekMonth(week: seq<Cell>): Option<int>
  {
    match FirstDay(week)
    case None => None
    case Some(d) => Some(Calendar.MonthOf(d.date))
  }

  /** The month of each week row, as the label pass sees it. */
  function WeekMonths(weeks: seq<seq<Cell>>): (months: seq<Option<int>>)
    ensures |months| == |weeks|
    ensures forall w :: 0 <= w < |weeks| ==> months[w] == WeekMonth(weeks[w])
    ensures forall w :: 0 <= w < |weeks| && months[w].Some? ==> 0 <= months[w].value < 12
  {
    seq(|weeks|, w requires 0 <= w < |weeks| => WeekMonth(weeks[w]))
  }

  /** A month label: the month index (0 = January) and the week row it sits above. */
  datatype MonthLabel = MonthLabel(month: int, weekIndex: nat)

  /** The label sits above a week whose first non-null cell falls in the label's month. */
  predicate LabelFits(months: seq<Option<int>>, l: MonthLabel)
  {
    l.weekIndex < |months| && months[l.weekIndex] == Some(l.month)
  }

  /** The month of the last label that sits before week `w`, or -1 when there is none. */
  function MonthBefore(labels: seq<MonthLabel>, w: int): int
  {
    if labels == [] then -1
    else if labels[|labels| - 1].weekIndex < w then labels[|labels| - 1].month
    else MonthBefore(labels[..|labels| - 1], w)
  }

  /** Some label sits above week `w`. */
  predicate Labelled(labels: seq<MonthLabel>, w: int)
  {
    exists k :: 0 <= k < |labels| && labels[k].weekIndex == w
  }

  /**
    Week `w`, when it has a non-null cell, is labelled exactly when its month differs from the
    month of the label before it.
   */
  predicate LabelledWhenMonthChanges(months: seq<Option<int>>, labels: seq<MonthLabel>, w: int)
    requires 0 <= w < |months|
  {
    months[w].Some? ==> (Labelled(labels, w) <==> months[w].value != MonthBefore(labels, w))
  }

  /**
    What the label pass has established after weeks `0 .. i-1`: every label fits its week, the
    labels are in week order with a change of month between neighbours, and each week so far
    is labelled exactly when its month changes.
   */
  predicate LabelsUpTo(months: seq<Option<int>>, labels: seq<MonthLabel>, i: int)
  {
    && 0 <= i <= |months|
    && (forall k :: 0 <= k < |labels| ==> LabelFits(months, labels[k]) && labels[k].weekIndex < i)
    && (forall k, l :: 0 <= k < l < |labels| ==> labels[k].weekIndex < labels[l].weekIndex)
    && (forall k :: 0 < k < |labels| ==> labels[k - 1].month != labels[k].month)
    && (forall w :: 0 <= w < i ==> LabelledWhenMonthChanges(months, labels, w))
    && (0 < i && months[0].Some? ==> 0 < |labels| && labels[0].weekIndex == 0)
  }

  lemma {:induction false} MonthBeforeAppend(labels: seq<MonthLabel>, l: MonthLabel, w: int)
    requires w <= l.weekIndex
    ensures MonthBefore(labels + [l], w) == MonthBefore(labels, w)
  {
    assert (labels + [l])[..|labels|] == labels;
  }

  /** Appending a label for a later week changes nothing about the earlier weeks. */
  lemma {:induction false} AppendLabel(months: seq<Option<int>>, labels: seq<MonthLabel>, l: MonthLabel, w: int)
    requires 0 <= w < l.weekIndex && w < |months|
    requires LabelledWhenMonthChanges(months, labels, w)
    ensures LabelledWhenMonthChanges(months, labels + [l], w)
  {
    MonthBeforeAppend(labels, l, w);
    if Labelled(labels + [l], w) {
      var k :| 0 <= k < |labels| + 1 && (labels + [l])[k].weekIndex == w;
      assert k < |labels| && labels[k].weekIndex == w;
    }
    if Labelled(labels, w) {
      var k :| 0 <= k < |labels| && labels[k].weekIndex == w;
      assert (labels + [l])[k].weekIndex == w;
    }
  }

  /** Week `i` is skipped: it has no non-null cell, or its month is the last label's month. */
  lemma {:induction false} SkipWeek(months: seq<Option<int>>, labels: seq<MonthLabel>, i: int)
    requires LabelsUpTo(months, labels, i) && i < |months|
    requires months[i].Some? ==> 0 <= months[i].value == MonthBefore(labels, i)
    ensures LabelsUpTo(months, labels, i + 1)
    ensures MonthBefore(labels, i + 1) == MonthBefore(labels, i)
  {
    forall k | 0 <= k < |labels| ensures labels[k].weekIndex != i {
    }
    assert !Labelled(labels, i);
    if labels != [] {
      assert labels[|labels| - 1].weekIndex < i;
    }
  }

  /** The appended label fits its week and keeps the labels in week order. */
  lemma {:induction false} AppendFits(months: seq<Option<int>>, labels: seq<MonthLabel>, lab: MonthLabel, i: int)
    requires forall k :: 0 <= k < |labels| ==> LabelFits(months, labels[k]) && labels[k].weekIndex < i
    requires forall k, l :: 0 <= k < l < |labels| ==> labels[k].weekIndex < labels[l].weekIndex
    requires LabelFits(months, lab) && lab.weekIndex == i
    ensures forall k :: 0 <= k < |labels + [lab]| ==>
              LabelFits(months, (labels + [lab])[k]) && (labels + [lab])[k].weekIndex < i + 1
    ensures forall k, l :: 0 <= k < l < |labels + [lab]| ==> (labels + [lab])[k].weekIndex < (labels + [lab])[l].weekIndex
  {
    var next := labels + [lab];
    forall k | 0 <= k < |next| ensures LabelFits(months, next[k]) && next[k].weekIndex < i + 1 {
      if k < |labels| { assert next[k] == labels[k]; }
    }
    forall k, l | 0 <= k < l < |next| ensures next[k].weekIndex < next[l].weekIndex {
      assert next[k] == labels[k];
      if l < |labels| { assert next[l] == labels[l]; }
    }
  }

  /** The appended label's month differs from the last label's month. */
  lemma {:induction false} AppendAlternates(labels: seq<MonthLabel>, lab: MonthLabel)
    requires forall k :: 0 < k < |labels| ==> labels[k - 1].month != labels[k].month
    requires labels != [] ==> labels[|labels| - 1].month != lab.month
    ensures forall k :: 0 < k < |labels + [lab]| ==> (labels + [lab])[k - 1].month != (labels + [lab])[k].month
  {
    var next := labels + [lab];
    forall k | 0 < k < |next| ensures next[k - 1].month != next[k].month {
      assert next[k - 1] == labels[k - 1];
      if k < |labels| { assert next[k] == labels[k]; }
    }
  }

  /** The appended label decides week `i` and leaves the earlier weeks as they were. */
  lemma {:induction false} AppendDecides(months: seq<Option<int>>, labels: seq<MonthLabel>, i: int)
    requires 0 <= i < |months| && months[i].Some?
    requires forall k :: 0 <= k < |labels| ==> labels[k].weekIndex < i
    requires forall w :: 0 <= w < i ==> LabelledWhenMonthChanges(months, labels, w)
    requires months[i].value != MonthBefore(labels, i)
    ensures forall w :: 0 <= w < i + 1 ==> LabelledWhenMonthChanges(months, labels + [MonthLabel(months[i].value, i)], w)
  {
    var lab := MonthLabel(months[i].value, i);
    var next := labels + [lab];
    forall w | 0 <= w < i
      ensures LabelledWhenMonthChanges(months, next, w)
    {
      AppendLabel(months, labels, lab, w);
    }
    MonthBeforeAppend(labels, lab, i);
    assert next[|labels|].weekIndex == i;
  }

  /** Week `i` gets a label, because its month differs from the last label's month. */
  lemma {:induction false} LabelWeek(months: seq<Option<int>>, labels: seq<MonthLabel>, i: int)
    requires LabelsUpTo(months, labels, i) && i < |months|
    requires months[i].Some? && months[i].value != MonthBefore(labels, i)
    requires MonthBefore(labels, i) == if labels == [] then -1 else labels[|labels| - 1].month
    ensures LabelsUpTo(months, labels + [MonthLabel(months[i].value, i)], i + 1)
    ensures MonthBefore(labels + [MonthLabel(months[i].value, i)], i + 1) == months[i].value
  {
    var lab := MonthLabel(months[i].value, i);
    var next := labels + [lab];
    AppendFits(months, labels, lab, i);
    AppendAlternates(labels, lab);
    AppendDecides(months, labels, i);
    if 0 < i && months[0].Some? { assert next[0] == labels[0]; }
  }

  /**
    The label pass: one label for each week whose first non-null cell falls in a different
    month from the previously labelled one; `lastMonth` starts at -1.
   */
  method MonthLabels(weeks: seq<seq<Cell>>) returns (labels: seq<MonthLabel>)
    ensures LabelsUpTo(WeekMonths(weeks), labels, |weeks|)
  {
    ghost var months := WeekMonths(weeks);
    var lastMonth := -1;
    labels := [];
    for i := 0 to |weeks|
      invariant LabelsUpTo(months, labels, i)
      invariant lastMonth == MonthBefore(labels, i)
      invariant lastMonth == if labels == [] then -1 else labels[|labels| - 1].month
    {
      var firstDay := FirstDay(weeks[i]);
      if firstDay.Some? && Calendar.MonthOf(firstDay.value.date) != lastMonth {
        var month := Calendar.MonthOf(firstDay.value.date);
        assert months[i] == Some(month);
        LabelWeek(months, labels, i);
        lastMonth := month;
        labels := labels + [MonthLabel(month, i)];
      } else {
        assert months[i].Some? ==> 0 <= months[i].value == lastMonth;
        SkipWeek(months, labels, i);
      }
    }
  }

  /** The grid's first row shows `startDate` as its first non-null cell. */
  lemma {:induction false} FirstRowStartsAtStartDate(dataMap: map<Calendar.Day, DaySummary>, startDate: Calendar.Day, today: Calendar.Day, weeks: seq<seq<Cell>>)
    requires startDate <= today && 0 < |weeks|
    requires forall d :: d in dataMap ==> dataMap[d].date == d
    requires IsGrid(weeks, dataMap, startDate, today)
    ensures FirstDay(weeks[0]).Some? && FirstDay(weeks[0]).value.date == startDate
  {
    var first := GridStart(startDate);
    var j := startDate - first;
    assert weeks[0] == Row(dataMap, startDate, today, first);
    assert weeks[0][j] == CellAt(dataMap, startDate, today, startDate);
    FirstDayIsFirst(weeks[0]);
    var i :| 0 <= i < 7 && weeks[0][i] == FirstDay(weeks[0]) && forall k :: 0 <= k < i ==> weeks[0][k].None?;
    assert weeks[0][i] == CellAt(dataMap, startDate, today, first + i);
  }

  /**
    The whole effect: the grid, then its labels. The first row is labelled with the month of
    the window's first day.
   */
  method GridWithLabels(data: seq<DaySummary>, startDate: Calendar.Day, today: Calendar.Day)
    returns (weeks: seq<seq<Cell>>, labels: seq<MonthLabel>)
    requires startDate <= today
    ensures |weeks| == WeekCount(startDate, today) && IsGrid(weeks, LatestByDate(data), startDate, today)
    ensures LabelsUpTo(WeekMonths(weeks), labels, |weeks|)
    ensures 0 < |labels| && labels[0] == MonthLabel(Calendar.MonthOf(startDate), 0)
  {
    weeks := BuildWeeks(data, startDate, today);
    RowsCoverToday(startDate, today, |weeks|);
    FirstRowStartsAtStartDate(LatestByDate(data), startDate, today, weeks);
    assert WeekMonths(weeks)[0] == Some(Calendar.MonthOf(startDate));
    labels := MonthLabels(weeks);
  }

  /** The five colour classes, from no activity to the most. */
  const Palette: seq<string> := [
    "bg-muted",
    "bg-green-200 dark:bg-green-900",
    "bg-green-400 dark:bg-green-700",
    "bg-green-600 dark:bg-green-600",
    "bg-green-800 dark:bg-green-500"
  ]

  /**
    The colour bucket of a day's total tag weight: 0 only for a zero total; then thresholds
    2, 5 and 8. A negative total falls into bucket 1, as the comparisons in the component do.
   */
  function Bucket(total: int): (b: nat)
    ensures b < |Palette|
    ensures b == 0 <==> total == 0
    ensures b == 1 <==> total != 0 && total <= 2
    ensures b == 2 <==> 2 < total <= 5
    ensures b == 3 <==> 5 < total <= 8
    ensures b == 4 <==> total > 8
  {
    if total == 0 then 0
    else if total <= 2 then 1
    else if total <= 5 then 2
    else if total <= 8 then 3
    else 4
  }

  /** More activity never gives a lighter colour. */
  lemma {:induction false} BucketMonotone(a: int, b: int)
    requires 0 <= a <= b
    ensures Bucket(a) <= Bucket(b)
  {
  }

  /** The bucket a cell is coloured with: 0 for a null cell or one without tag weights. */
  ghost function Intensity(day: Cell): nat
  {
    if day.None? || day.value.tagWeights.None? then 0 else Bucket(Sum(day.value.tagWeights.value))
  }

  /** `getColor`: sums the cell's tag weights and picks the colour class of its bucket. */
  method GetColor(day: Cell) returns (color: string)
    ensures Intensity(day) < |Palette| && color == Palette[Intensity(day)]
    ensures day.Some? && day.value.tagWeights.Some? && Sum(day.value.tagWeights.value) == 0 ==> color == "bg-muted"
  {
    if day.None? || day.value.tagWeights.None? {
      return Palette[0];
    }
    var weights := day.value.tagWeights.value;
    var total := 0;
    var rest := weights;
    while rest != map[]
      invariant total + Sum(rest) == Sum(weights)
      decreases |rest|
    {
      var k :| k in rest;
      SumRemove(rest, k);
      SmallerWithout(rest, k);
      total := total + rest[k];
      rest := rest - {k};
    }
    if total == 0 {
      color := Palette[0];
    } else if total <= 2 {
      color := Palette[1];
    } else if total <= 5 {
      color := Palette[2];
    } else if total <= 8 {
      color := Palette[3];
    } else {
      color := Palette[4];
    }
  }
}

=== FILE: registration.dfy ===
/**
  The registration endpoint (app/api/auth/register/route.ts): validation of the request body,
  the call to `userOps.register`, and the mapping of every thrown error to a 400 response.
  The outcomes of parsing the body, of `userOps.register` and of `setSession` are inputs.
 */
module Registration {
  import opened Wrappers

  const MissingFields := "Email, name, and password are required"
  const PasswordsDiffer := "Passwords do not match"
  const PasswordTooShort := "Password must be at least 6 characters"
  const RegistrationFailed := "Registration failed"
  const MinPasswordLength := 6

  /** A body field: None when absent or not a string. */
  type Field = Option<string>

  datatype RegisterBody = RegisterBody(email: Field, name: Field, password: Field, confirmPassword: Field)

  /** The arguments `userOps.register` is called with. */
  datatype Credentials = Credentials(email: string, name: string, password: string)

  /** With a non-string field read as absent, a field passes `!field` exactly when it is a non-empty string. */
  predicate Present(f: Field)
  {
    f.Some? && f.value != ""
  }

  /** The three checks of the handler, in order; the first one that fails gives the message. */
  function Validate(body: RegisterBody): (r: Result<Credentials, string>)
    ensures r == Failure(MissingFields) <==> !(Present(body.email) && Present(body.name) && Present(body.password))
    ensures r == Failure(PasswordsDiffer) <==>
              Present(body.email) && Present(body.name) && Present(body.password)
              && body.confirmPassword != body.password
    ensures r == Failure(PasswordTooShort) <==>
              Present(body.email) && Present(body.name) && Present(body.password)
              && body.confirmPassword == body.password && |body.password.value| < MinPasswordLength
    ensures r.Success? <==>
              Present(body.email) && Present(body.name) && Present(body.password)
              && body.confirmPassword == body.password && |body.password.value| >= MinPasswordLength
    ensures r.Success? ==> r.value == Credentials(body.email.value, body.name.value, body.password.value)
  {
    if !Present(body.email) || !Present(body.name) || !Present(body.password) then
      Failure(MissingFields)
    else if body.password != body.confirmPassword then
      Failure(PasswordsDiffer)
    else if |body.password.value| < MinPasswordLength then
      Failure(PasswordTooShort)
    else
      Success(Credentials(body.email.value, body.name.value, body.password.value))
  }

  /** A thrown value: an `Error` with its message, or anything else. */
  datatype Thrown = Error(message: string) | NotAnError

  /** The `catch` clause's message. */
  function CaughtMessage(e: Thrown): (m: string)
    ensures e.Error? ==> m == e.message
    ensures e.NotAnError? ==> m == RegistrationFailed
  {
    match e
    case Error(message) => message
    case NotAnError => RegistrationFailed
  }

  datatype User = User(id: string, email: string, name: string)

  datatype Body = ErrorBody(error: string) | UserBody(user: User)

  datatype Response = Response(status: int, body: Body)

  /** The response, and the call made to `userOps.register`, if any. */
  datatype Outcome = Outcome(response: Response, registered: Option<Credentials>)

  /**
    The handler. `parsed` is the outcome of `request.json()`; `registerOutcome` and
    `sessionOutcome` are what `userOps.register` and `setSession` do when they are called.
   */
  function Handle(parsed: Result<RegisterBody, Thrown>, registerOutcome: Result<User, Thrown>,
                  sessionOutcome: Result<(), Thrown>): (o: Outcome)
    ensures o.registered.Some? <==> parsed.Success? && Validate(parsed.value).Success?
    ensures o.registered.Some? ==> o.registered.value == Validate(parsed.value).value
    ensures parsed.Failure? ==> o.response == Response(400, ErrorBody(CaughtMessage(parsed.error)))
    ensures parsed.Success? && Validate(parsed.value).Failure? ==>
              o.response == Response(400, ErrorBody(Validate(parsed.value).error))
    ensures o.response.status == 200 <==> o.registered.Some? && registerOutcome.Success? && sessionOutcome.Success?
    ensures o.response.status == 200 ==> o.response.body == UserBody(registerOutcome.value)
    ensures o.response.status != 200 ==> o.response.status == 400 && o.response.body.ErrorBody?
    ensures o.registered.Some? && registerOutcome.Failure? ==>
              o.response == Response(400, ErrorBody(CaughtMessage(registerOutcome.error)))
    ensures o.registered.Some? && registerOutcome.Success? && sessionOutcome.Failure? ==>
              o.response == Response(400, ErrorBody(CaughtMessage(sessionOutcome.error)))
  {
    match parsed
    case Failure(e) => Outcome(Response(400, ErrorBody(CaughtMessage(e))), None)
    case Success(body) =>
      match Validate(body)
      case Failure(message) => Outcome(Response(400, ErrorBody(message)), None)
      case Success(credentials) =>
        var response :=
          match registerOutcome
          case Failure(e) => Response(400, ErrorBody(CaughtMessage(e)))
          case Success(user) =>
            match sessionOutcome
            case Failure(e) => Response(400, ErrorBody(CaughtMessage(e)))
            case Success(_) => Response(200, UserBody(user));
        Outcome(response, Some(credentials))
  }
}

=== FILE: summaries.dfy ===
/**
  Daily summaries as the dashboard and the heatmap receive them: `{ date, weight, tagWeights }`,
  where `tagWeights` may be missing (both consumers guard against that).
 */
module Summaries {
  import opened Wrappers
  import opened TagWeights
  import Calendar

  datatype DaySummary = DaySummary(date: Calendar.Day, weight: int, tagWeights: Option<WeightMap>)

  /** The dates that occur in `data`. */
  function Dates(data: seq<DaySummary>): set<Calendar.Day>
  {
    set i | 0 <= i < |data| :: data[i].date
  }

  /** `data[i]` is the last summary in `data` with its date. */
  predicate IsLast(data: seq<DaySummary>, i: int)
  {
    0 <= i < |data| && forall j :: i < j < |data| ==> data[j].date != data[i].date
  }

  lemma {:induction false} LastOfPrefix(data: seq<DaySummary>, i: int)
    requires data != []
    requires IsLast(data[..|data| - 1], i)
    requires data[|data| - 1].date != data[i].date
    ensures IsLast(data, i)
  {
    var init := data[..|data| - 1];
    forall j | i < j < |data| ensures data[j].date != data[i].date {
      if j < |init| { assert data[j] == init[j]; }
    }
  }

  /**
    `new Map(data.map(d => [d.date, d]))`: one entry per date, and for a date that occurs more
    than once the LAST summary with that date wins.
   */
  function LatestByDate(data: seq<DaySummary>): (m: map<Calendar.Day, DaySummary>)
    ensures m.Keys == Dates(data)
    ensures forall d :: d in m ==> m[d].date == d
    ensures forall d :: d in m ==> exists i :: IsLast(data, i) && data[i] == m[d]
  {
    if data == [] then map[]
    else
      var init := data[..|data| - 1];
      var last := data[|data| - 1];
      var m0 := LatestByDate(init);
      var m := m0[last.date := last];
      assert Dates(data) == Dates(init) + {last.date} by {
        forall d | d in Dates(data) ensures d in Dates(init) + {last.date} {
          var i :| 0 <= i < |data| && data[i].date == d;
          if i < |data| - 1 { assert init[i] == data[i]; }
        }
        forall d | d in Dates(init) ensures d in Dates(data) {
          var i :| 0 <= i < |init| && init[i].date == d;
          assert data[i] == init[i];
        }
      }
      forall d | d in m
        ensures exists i :: IsLast(data, i) && data[i] == m[d]
      {
        if d == last.date {
          assert IsLast(data, |data| - 1);
        } else {
          var i :| IsLast(init, i) && init[i] == m0[d];
          assert data[i] == init[i];
          LastOfPrefix(data, i);
        }
      }
      m
  }
}

=== FILE: tag_weights.dfy ===
/**
  Per-tag weight dictionaries (`{ [tagId: string]: number }` in the source) and their total,
  `Object.values(m).reduce((a, b) => a + b, 0)`.
 */
module TagWeights {

  type WeightMap = map<string, int>

  /** `m[k] || 0`: a missing key reads as zero. */
  function Get0(m: WeightMap, k: string): int
  {
    if k in m then m[k] else 0
  }

  /** The sum of all values of the map, in no particular key order. */
  ghost function Sum(m: WeightMap): int
    decreases |m|
  {
    if m == map[] then 0
    else
      var k :| k in m;
      assert |m - {k}| < |m| by { assert (m - {k}).Keys == m.Keys - {k}; }
      m[k] + Sum(m - {k})
  }

  lemma {:induction false} SmallerWithout(m: WeightMap, k: string)
    requires k in m
    ensures |m - {k}| == |m| - 1
  {
    assert (m - {k}).Keys == m.Keys - {k};
  }

  /** The sum does not depend on which key is taken out first. */
  lemma {:induction false} SumRemove(m: WeightMap, k: string)
    requires k in m
    ensures Sum(m) == m[k] + Sum(m - {k})
    decreases |m|
  {
    var j :| j in m && Sum(m) == m[j] + Sum(m - {j});
    if j != k {
      SmallerWithout(m, j);
      SmallerWithout(m, k);
      SumRemove(m - {j}, k);
      SumRemove(m - {k}, j);
      assert m - {j} - {k} == m - {k} - {j};
    }
  }

  /** Writing `v` at key `k` changes the sum by `v - (m[k] || 0)`. */
  lemma {:induction false} SumUpdate(m: WeightMap, k: string, v: int)
    ensures Sum(m[k := v]) == Sum(m) - Get0(m, k) + v
  {
    SumRemove(m[k := v], k);
    if k in m {
      SumRemove(m, k);
      assert m[k := v] - {k} == m - {k};
    } else {
      assert m[k := v] - {k} == m;
    }
  }
}

=== FILE: tags.dfy ===
/**
  The fixed tag catalog (lib/db/actions.ts, `predefinedTags` and `tagOps`).
  The catalog is static and read-only; an unknown id resolves to None, never to an error.
 */
module Tags {
  import opened Wrappers

  datatype Tag = Tag(id: string, name: string, weight: int, color: string)

  /** The three predefined tags, in declared order. */
  const Catalog: seq<Tag> := [
    Tag("tag-money", "money", 1, "#22c55e"),
    Tag("tag-knowledge", "knowledge", 1, "#3b82f6"),
    Tag("tag-branding", "branding", 1, "#8b5cf6")
  ]

  /** The three ids differ (they already differ in length). */
  lemma {:induction false} IdsDistinct()
    ensures "tag-money" != "tag-knowledge" && "tag-money" != "tag-branding" && "tag-knowledge" != "tag-branding"
  {
    assert |"tag-money"| == 9 && |"tag-knowledge"| == 13 && |"tag-branding"| == 12;
  }

  /** `tagOps.list`: the catalog itself, in a stable order. */
  function List(): (tags: seq<Tag>)
    ensures |tags| == 3
    ensures tags[0].id == "tag-money" && tags[1].id == "tag-knowledge" && tags[2].id == "tag-branding"
    ensures forall i, j :: 0 <= i < j < |tags| ==> tags[i].id != tags[j].id
    ensures forall i :: 0 <= i < |tags| ==> tags[i].weight == 1
  {
    Catalog
  }

  /** `Array.prototype.find` on the id: the first tag whose id matches, if any. */
  function FindById(tags: seq<Tag>, id: string): (r: Option<Tag>)
    ensures r.Some? <==> exists i :: 0 <= i < |tags| && tags[i].id == id
    ensures r.Some? ==> exists i :: 0 <= i < |tags| && tags[i] == r.value && r.value.id == id
                                    && forall j :: 0 <= j < i ==> tags[j].id != id
  {
    if tags == [] then None
    else if tags[0].id == id then Some(tags[0])
    else
      var r := FindById(tags[1..], id);
      assert r.Some? ==> exists i :: 0 <= i < |tags| - 1 && tags[1..][i] == r.value && r.value.id == id
                                     && forall j :: 0 <= j < i ==> tags[1..][j].id != id;
      r
  }

  /** Exactly the three catalog ids resolve. */
  lemma {:induction false} KnownIds(id: string)
    ensures Get(id).Some? <==> id in {"tag-money", "tag-knowledge", "tag-branding"}
  {
    assert Catalog[0].id == "tag-money" && Catalog[1].id == "tag-knowledge" && Catalog[2].id == "tag-branding";
  }

  /** `tagOps.get`: the catalog tag with this id, or None. */
  function Get(id: string): (r: Option<Tag>)
    ensures r.Some? <==> exists i :: 0 <= i < |Catalog| && Catalog[i].id == id
    ensures r.Some? ==> r.value.id == id && r.value in Catalog && r.value.weight == 1
  {
    FindById(Catalog, id)
  }
}

=== FILE: wrappers.dfy ===
/** Option and Result, the shapes the source expresses with `undefined`/`null` and thrown errors. */
module Wrappers {

  datatype Option<+T> = None | Some(value: T)

  datatype Result<+R, +E> = Success(value: R) | Failure(error: E)
}
